=== FILE: README.md ===
# PowerShell.Time conversion engine, in Dafny

This project models the conversion engine of PowerShell.Time in Dafny.
The engine is the `DateTimeExtensions` class and its `Ensure` guard helpers.
It converts a .NET `DateTime` or `DateTimeOffset` into a named IANA time zone using NodaTime.
It handles four things:

- wall-clock readings that a zone shows twice (an overlap) or not at all (a gap);
- offsets carrying seconds, which `DateTimeOffset` cannot hold;
- results that fall outside `DateTimeOffset`'s range;
- inputs with the wrong `DateTimeKind`.

Every time is a count of 100-nanosecond ticks since 0001-01-01 (the .NET epoch).
On the modelled paths, every exception the code throws becomes a value: `Fail` for a guard, `Failure` for an operation.
The throws listed under "## Left out" are the exceptions.

| file | module | models |
|---|---|---|
| `outcomes.dfy` | `Outcomes` | exceptions as values (`Exception`, `Outcome`, `Result`) |
| `time.dfy` | `Time` | `DateTime`, `TimeSpan`, `DateTimeOffset` and its constructor's checks; NodaTime's `LocalDateTime`, `Offset`, `ZonedDateTime` |
| `ensure.dfy` | `Ensure` | `src/Ensure.cs` |
| `zones.dfy` | `Zones` | the zone the engine queries: its offset at an instant and its mapping of a local reading |
| `flooring.dfy` | `Flooring` | `Floor(long, long)` and `Floor(TimeSpan, TimeSpan)` |
| `safe_conversion.dfy` | `SafeConversion` | `ToDateTimeOffsetSafe` |
| `resolution.dfy` | `Resolution` | `DefaultResolver` and `LocalDateTime.InZone` with it |
| `date_time_extensions.dfy` | `DateTimeExtensions` | the zone lookup and the three public conversions |

Three places where the code and its comments disagree. The model follows the code in each case.

- **Overlaps.** The comment on `DefaultResolver` says a repeated reading resolves to the earlier occurrence.
  The code passes `Resolvers.ReturnLater`, so it resolves to the later one.
  `Resolution.AmbiguousResolvesLater` proves the result is the later instant, one overlap length after the earlier one.
- **Rounding.** The comment on `Floor` says "rounded down".
  The code divides with C#'s `/`, which truncates toward zero, so a negative number is rounded up.
  `Flooring.FloorRoundsDownIff` states exactly when the two agree.
  The truncation is what keeps the `DateTimeOffset` constructor from throwing.
  With the offset rounded down, a reading just below `MaxValue` would move past it (`SafeConversion.RoundingDownWouldOverflow`).
  With truncation, the result's UTC instant always stays in range (`SafeConversion.TruncatedOffsetFits`).
- **Offsets over 14 hours.** `ToDateTimeOffsetSafe` promises to return `MinValue` or `MaxValue` instead of failing.
  But its final constructor still throws `ArgumentOutOfRangeException` when the truncated offset exceeds 14 hours.
  NodaTime allows offsets up to 18 hours.
  The model keeps this throw as a `Failure`.
  `SafeConversion.ToDateTimeOffsetSafe` states that it is the only failure, and exactly when it happens.

## Model

| member | source | states |
|---|---|---|
| `Ensure.IsNotNull` | src/Ensure.cs:9-15 | fails, with ArgumentNull naming the parameter, exactly when the reference is null; otherwise passes and yields nothing |
| `Ensure.IsTrue` | src/Ensure.cs:48-54 | passes exactly when the condition holds; otherwise fails with Argument carrying the given message and parameter name |
| `Ensure.IsTrueWithMessage` | src/Ensure.cs:42-46 | passes exactly when the condition holds; otherwise fails with Argument carrying the message and a null parameter name |
| `Ensure.IsTrueCondition` | src/Ensure.cs:36-40 | passes exactly when the condition holds; otherwise fails with Argument with null message and parameter name |
| `Ensure.All` | src/DateTimeExtensions.cs:23-24 | guards run as consecutive statements pass exactly when every guard passes; otherwise the exception raised is the first failing guard's |
| `Ensure.OverloadsAgree` | src/Ensure.cs:36-54 | a summary that holds by construction: the one- and two-argument forms equal the three-argument form with the missing arguments null; a null-check failure is never the same exception as a condition failure |
| `Ensure.DateTimeKindIsUtc` | src/Ensure.cs:18-24 | passes exactly when the kind is Utc; otherwise fails with Argument carrying the TimeMustBeUtc message and the parameter name |
| `Ensure.DateTimeKindIsUnspecified` | src/Ensure.cs:27-33 | passes exactly when the kind is Unspecified; otherwise fails with Argument carrying the TimeMustBeUnspecified message and the parameter name |
| `Ensure.KindGuardsPartition` | src/Ensure.cs:18-33 | a summary of the two guards' contracts: a Local time is rejected by both kind guards, and no time passes both |
| `Flooring.Quotient` | src/DateTimeExtensions.cs:78 | C#'s truncating division: the remainder is smaller than the divisor in magnitude and has the sign of the dividend |
| `Flooring.Floor` | src/DateTimeExtensions.cs:76-80 | the result fits in a long, is a multiple of the significance, lies between 0 and the number, and is less than one significance away from it |
| `Flooring.FloorTimeSpan` | src/DateTimeExtensions.cs:65-68 | the result's ticks are the span's ticks moved toward zero onto a multiple of the significance's ticks |
| `Flooring.TruncationIsUnique` | src/DateTimeExtensions.cs:76-80 | at most one value is a multiple of the significance between 0 and the number and within one significance of it |
| `Flooring.FloorIsTheTruncation` | src/DateTimeExtensions.cs:76-80 | every value with that truncation property is the floor |
| `Flooring.FloorIdempotent` | src/DateTimeExtensions.cs:76-80 | flooring the floor changes nothing |
| `Flooring.FloorBrackets` | src/DateTimeExtensions.cs:76-80 | for a positive significance: a non-negative number n gives r <= n < r + s; a negative n gives n <= r < n + s; and \|r\| <= \|n\| |
| `Flooring.FloorRoundsDownIff` | src/DateTimeExtensions.cs:70-80 | the floor equals rounding down exactly when the number is non-negative or an exact multiple; otherwise it is one significance above |
| `Time.NewDateTimeOffset` | src/DateTimeExtensions.cs:125 | the constructor succeeds exactly when the offset agrees with the DateTime's kind (zero for Utc, the machine zone's offset for Local, anything for Unspecified), is whole minutes, is within 14 hours, and leaves the UTC instant in DateTime's range; a kind mismatch fails first, with Argument on "offset"; then a fractional minute fails with Argument, and the remaining failures with ArgumentOutOfRange on "offset" |
| `Time.ConstructorIgnoresMachineZone` | src/DateTimeExtensions.cs:125 | for the Unspecified DateTime built at this line, the result does not depend on the machine zone's offset; a Utc time with a zero offset gives the same result as an Unspecified one |
| `Time.LocalAt` | src/DateTimeExtensions.cs:53 | `LocalDateTime.FromDateTime`, also the local half of `Instant.InZone` (line 42): keeps the ticks, and the year is within 1..9999 exactly when DateTime can hold the ticks |
| `SafeConversion.ToDateTimeUnspecified` | src/DateTimeExtensions.cs:125 | `LocalDateTime.ToDateTimeUnspecified` for a year DateTime can hold: the same ticks, with kind Unspecified |
| `SafeConversion.UnspecifiedRoundTrip` | src/DateTimeExtensions.cs:53 | `FromDateTime` then `ToDateTimeUnspecified` gives back the Unspecified DateTime it started from, for any calendar, and the intermediate year is always within 1..9999 |
| `Zones.InZone` | src/DateTimeExtensions.cs:42 | the zone's reading at an instant carries the zone's offset there, and converting it back through that offset gives the same instant |
| `SafeConversion.ToDateTimeOffsetSafe` | src/DateTimeExtensions.cs:90-126 | an instant above MaxValue gives MaxValue and one below MinValue gives MinValue, whatever the year; then a year above 9999 gives MaxValue and below 1 gives MinValue; otherwise the local reading is kept with its offset truncated to whole minutes, which succeeds exactly when the offset is under 14 hours plus a minute; every success is a valid DateTimeOffset, and the only failure is ArgumentOutOfRange on the offset |
| `SafeConversion.TruncatedOffsetFits` | src/DateTimeExtensions.cs:120-125 | truncating the offset keeps the UTC instant between the local reading and the zoned instant, so inside DateTime's range; the truncated offset is within 14 hours exactly when the original is under 14 hours plus a minute |
| `SafeConversion.InstantChecksWin` | src/DateTimeExtensions.cs:92-106 | once the instant is out of range, moving the local year within its band does not change the result; the unconditional precedence is in `ToDateTimeOffsetSafe`'s own contract |
| `SafeConversion.SafeConversionStaysWithinAMinute` | src/DateTimeExtensions.cs:120-125 | an in-range result carries no seconds in its offset and denotes an instant less than a minute from the zoned one, moved toward the local reading |
| `SafeConversion.SafeConversionRoundTrip` | src/DateTimeExtensions.cs:90-126 | a valid DateTimeOffset read as a zoned value converts back to itself |
| `SafeConversion.RoundingDownWouldOverflow` | src/DateTimeExtensions.cs:120-125 | a reading 30 s before MaxValue at offset -00:00:30 converts to itself at offset zero, while the offset rounded down to -00:01 would make the constructor fail |
| `Resolution.DefaultResolver` | src/DateTimeExtensions.cs:13 | total; a unique or repeated reading keeps its local reading; a repeated one takes the later offset and an instant after the earlier occurrence; a skipped one moves forward by the gap, takes the offset after it, and denotes the instant given by the offset before it |
| `Resolution.ResolvedIsLatestCandidate` | src/DateTimeExtensions.cs:13 | the result is one of the instants at which the zone shows the reading exactly when the reading is not skipped, and no such instant is later |
| `Resolution.LocalInZone` | src/DateTimeExtensions.cs:55 | a reading the zone shows once resolves to that reading at that offset |
| `Resolution.ResolvedOffsetIsZoneOffset` | src/DateTimeExtensions.cs:55 | when the zone's mapping agrees with its offsets, the resolved offset is the zone's offset at the resolved instant |
| `Resolution.SkippedResolvesForward` | src/DateTimeExtensions.cs:13 | a skipped reading resolves to the zone's own reading at the instant its pre-gap offset points at, which is later than the input reading |
| `Resolution.AmbiguousResolvesLater` | src/DateTimeExtensions.cs:10-13 | a repeated reading takes the later offset, and its instant is the earlier occurrence's plus the overlap length |
| `DateTimeExtensions.GetZone` | src/DateTimeExtensions.cs:41 | succeeds exactly for a known identifier with its zone; otherwise fails with TimeZoneNotFound |
| `DateTimeExtensions.InTimeZoneOffset` | src/DateTimeExtensions.cs:36-44 | an unknown zone fails; every success is valid; for a valid input, a zone reading above DateTime's range gives MaxValue and below gives MinValue; in range, it succeeds exactly when the zone's offset is under 14 hours plus a minute, keeping the zone's reading, the truncated offset and an instant under a minute away |
| `DateTimeExtensions.InTimeZoneKeepsInstant` | src/DateTimeExtensions.cs:36-44 | at a zone offset of whole minutes within 14 hours and with an in-range reading, the result denotes exactly the input instant at exactly the zone's offset |
| `DateTimeExtensions.InTimeZone` | src/DateTimeExtensions.cs:21-28 | the null check passes; a non-Utc time fails with the TimeMustBeUtc Argument error before the zone is looked up; then an unknown zone fails; a success has kind Unspecified; a zone reading past DateTime's range gives MaxValue's clock time and one before it gives MinValue's; in range, it succeeds exactly when the zone's offset is under 14 hours plus a minute, and then returns the zone's reading at the time |
| `DateTimeExtensions.ToDateTimeOffsetInTimeZone` | src/DateTimeExtensions.cs:46-57 | the null check passes; a non-Unspecified time fails with the TimeMustBeUnspecified Argument error before the zone is looked up; then an unknown zone fails; every success is valid; when the zone's offsets fit in a DateTimeOffset it never fails, gap or overlap alike |
| `DateTimeExtensions.LocalConversionKeepsReading` | src/DateTimeExtensions.cs:46-57 | when every offset the zone gives for the reading fits in a DateTimeOffset (`OffsetsRepresentable`), a reading shown once or twice whose chosen instant is in range comes out unchanged, with the (later) offset truncated to minutes |
| `DateTimeExtensions.LocalConversionShiftsGap` | src/DateTimeExtensions.cs:46-57 | when both offsets around the gap fit in a DateTimeOffset (`OffsetsRepresentable`) and the shift stays in DateTime's range, a skipped reading succeeds; if its instant is in range, it comes out moved forward by the gap at the truncated post-gap offset |
| `DateTimeExtensions.LocalConversionClamps` | src/DateTimeExtensions.cs:46-57 | a resolved instant (the reading minus the later overlap offset, or minus the pre-gap offset) above DateTimeOffset's range gives MaxValue and below it MinValue; with the instant in range, a gap that moves the clock time past DateTime's range gives MaxValue (before it, MinValue); only a gap can move the clock time |
| `DateTimeExtensions.LocalConversionInRange` | src/DateTimeExtensions.cs:46-57 | with the resolved instant and clock time in range, it succeeds exactly when the chosen offset (the one offset, the later overlap offset, or the post-gap offset) is under 14 hours plus a minute, keeping the clock time with that offset truncated to minutes; otherwise the constructor at line 125 fails with ArgumentOutOfRange on "offset" |

## Left out

- NodaTime's zone database and transition rules are left out.
  They live in a library outside this repository.
  A zone is an abstract pair of functions: its offset at each instant, and its mapping of each local reading to one, two or no offsets.
  `Zones.MappingAgrees` states how the two must fit together, for the lemmas that need it.
- Calendar arithmetic is left out: turning ticks into year, month, day and time-of-day fields.
  `LocalDateTime.FromDateTime` and `ToDateTimeUnspecified` are modelled by stand-ins (`Time.LocalAt`, `SafeConversion.ToDateTimeUnspecified`).
  The stand-ins keep the ticks and a year constrained by the calendar's band property.
  A `LocalDateTime` carries its year as a field.
  The calendar is an abstract function.
  Both are constrained only by the band property the engine relies on: year < 1 exactly for negative ticks, and year > 9999 exactly for ticks past `DateTime.MaxValue`.
- The instant scale is simplified. NodaTime counts instants in nanoseconds from 1970; the model uses .NET ticks from year 1.
  The two differ by a fixed shift and scale, which no comparison in the engine depends on.
  NodaTime's own instant range limits are not modelled.
- NodaTime offsets have whole-second precision. The model allows any tick count within 18 hours.
- The `Ensure.IsNotNull` calls on `DateTime` and `DateTimeOffset` values (src/DateTimeExtensions.cs:23, 38, 50) are modelled, but always with a non-null reference.
  A boxed struct is never null, so these calls cannot fail.
- `DateTimeZoneProviders.Tzdb[null]` is left out. It throws ArgumentNullException; zone identifiers here are non-null strings.
- `new DateTimeOffset(DateTime)` on a Local or Unspecified time reads the machine's time zone.
  Only a Utc time reaches that call (src/DateTimeExtensions.cs:26), so only the zero-offset case is modelled.
- The machine's local time zone is not modelled. `Time.NewDateTimeOffset` takes its offset at the given time as a parameter, because a Local DateTime is checked against it.
  The engine only ever passes an Unspecified DateTime there, where that offset is never read (`Time.ConstructorIgnoresMachineZone`).
- `Flooring.Floor`: C# throws on division by zero and on `long.MinValue / -1`. The model makes both cases preconditions instead of failures.
  `FloorTimeSpan` does the same.
  The only caller passes a significance of one minute.
- `src/ConvertToTimeZoneCommand.cs` and `src/SetDateTimeKindCommand.cs` are left out.
  They are PowerShell cmdlet plumbing: parameter binding and `WriteObject`.
  Their one conversion without a source zone depends on the machine's local zone.
- Resource message text, `[DebuggerStepThrough]` and `ValidatedNotNullAttribute` are left out. They have no run-time behaviour.
  Messages are kept only by identity (`Outcomes.Message`).

=== FILE: date_time_extensions.dfy ===
/** The three public conversions, built from the guards, the zone lookup,
    the resolution policy and the safe conversion. */
module DateTimeExtensions {
  import opened Outcomes
  import opened Time
  import opened Zones
  import opened Flooring
  import opened SafeConversion
  import opened Resolution
  import Ensure

  /** The zone database, by identifier. */
  type Tzdb = map<string, DateTimeZone>

  /** `DateTimeZoneProviders.Tzdb[id]`: the zone, or
      DateTimeZoneNotFoundException for an identifier it does not know. */
  function GetZone(tzdb: Tzdb, id: string): (r: Result<DateTimeZone>)
    ensures r.Success? <==> id in tzdb
    ensures r.Success? ==> r.value == tzdb[id]
    ensures r.Failure? ==> r.error == TimeZoneNotFound(id)
  {
    if id in tzdb then Success(tzdb[id]) else Failure(TimeZoneNotFound(id))
  }

  /** The wall-clock ticks a zone shows at an instant. */
  function ReadingAt(zone: DateTimeZone, instant: int): int {
    instant + zone.offsetAt(instant)
  }

  /** `InTimeZone(DateTimeOffset, string)`: the same instant as seen in the
      named zone, clamped to DateTimeOffset's range. Once the zone is found
      the conversion fails only for an offset beyond DateTimeOffset's 14
      hours; a reading outside DateTime's range becomes MinValue or MaxValue,
      and any other keeps the zone's reading with its offset truncated to
      whole minutes, denoting an instant less than a minute away. */
  function InTimeZoneOffset(time: DateTimeOffset, timeZone: string, tzdb: Tzdb, cal: Calendar)
    : (r: Result<DateTimeOffset>)
    ensures timeZone !in tzdb ==> r == Failure(TimeZoneNotFound(timeZone))
    ensures r.Success? ==> r.value.Valid()
    ensures time.Valid() && timeZone in tzdb ==>
              var zone := tzdb[timeZone];
              var instant := time.UtcTicks();
              && (ReadingAt(zone, instant) > MaxTicks ==> r == Success(MaxValue))
              && (ReadingAt(zone, instant) < MinTicks ==> r == Success(MinValue))
              && (MinTicks <= ReadingAt(zone, instant) <= MaxTicks ==>
                    && (r.Success? <==> Abs(zone.offsetAt(instant)) < MaxDateTimeOffsetOffset + TicksPerMinute)
                    && (r.Success? ==>
                          && r.value.dateTime == ReadingAt(zone, instant)
                          && TruncatesTo(zone.offsetAt(instant), TicksPerMinute, r.value.offset.ticks)
                          && Abs(r.value.UtcTicks() - instant) < TicksPerMinute))
  {
    // A boxed DateTimeOffset is never null, so this guard always passes;
    // matching on it, rather than `:-`, means no precondition has to be
    // proved on a branch that cannot run.
    match Ensure.IsNotNull(Ensure.Object(time), Some("time"))
    case Fail(e) => Failure(e)
    case Pass =>
      var instant := time.UtcTicks();
      var dateTimeZone :- GetZone(tzdb, timeZone);
      var inZone := InZone(instant, dateTimeZone, cal);
      ToDateTimeOffsetSafe(inZone)
  }

  /** `InTimeZone(DateTime, string)`: a UTC time as a clock reading of the
      named zone. The kind guard runs before the zone is looked up, and the
      result's kind is Unspecified. */
  function InTimeZone(time: DateTime, timeZone: string, tzdb: Tzdb, cal: Calendar): (r: Result<DateTime>)
    ensures time.kind != Utc ==> r == Failure(Argument(Some(TimeMustBeUtc), Some("time")))
    ensures time.kind == Utc && timeZone !in tzdb ==> r == Failure(TimeZoneNotFound(timeZone))
    ensures r.Success? ==> r.value.kind == Unspecified
    ensures time.kind == Utc && timeZone in tzdb ==>
              var zone := tzdb[timeZone];
              && (ReadingAt(zone, time.ticks) > MaxTicks ==> r == Success(DateTime(MaxTicks, Unspecified)))
              && (ReadingAt(zone, time.ticks) < MinTicks ==> r == Success(DateTime(MinTicks, Unspecified)))
              && (MinTicks <= ReadingAt(zone, time.ticks) <= MaxTicks ==>
                    && (r.Success? <==> Abs(zone.offsetAt(time.ticks)) < MaxDateTimeOffsetOffset + TicksPerMinute)
                    && (r.Success? ==> r.value.ticks == ReadingAt(zone, time.ticks)))
  {
    var guards := [Ensure.IsNotNull(Ensure.Object(time), Some("time")),
                   Ensure.DateTimeKindIsUtc(time, Some("time"))];
    :- Ensure.All(guards);
    assert guards[1].Pass?;
    var utcDateTimeOffset := DateTimeOffset(time.ticks, TimeSpan(0));
    var inZone :- InTimeZoneOffset(utcDateTimeOffset, timeZone, tzdb, cal);
    Success(inZone.ClockTime())
  }

  /** Every offset the zone gives for a reading is one a DateTimeOffset can
      hold, as for every zone in current use. */
  predicate OffsetsRepresentable(mapping: ZoneLocalMapping) {
    match mapping
    case Unique(o) => Abs(o) <= MaxDateTimeOffsetOffset
    case Ambiguous(e, l) => Abs(e) <= MaxDateTimeOffsetOffset && Abs(l) <= MaxDateTimeOffsetOffset
    case Skipped(b, a) => Abs(b) <= MaxDateTimeOffsetOffset && Abs(a) <= MaxDateTimeOffsetOffset
  }

  /** `ToDateTimeOffsetInTimeZone(DateTime, string)`: an unspecified clock
      reading interpreted in the named zone, resolved by the default policy
      and clamped. The kind guard runs before the zone is looked up; a
      repeated or skipped reading never makes it fail. */
  function ToDateTimeOffsetInTimeZone(time: DateTime, timeZone: string, tzdb: Tzdb, cal: Calendar)
    : (r: Result<DateTimeOffset>)
    ensures time.kind != Unspecified ==>
              r == Failure(Argument(Some(TimeMustBeUnspecified), Some("time")))
    ensures time.kind == Unspecified && timeZone !in tzdb ==> r == Failure(TimeZoneNotFound(timeZone))
    ensures r.Success? ==> r.value.Valid()
    ensures (time.kind == Unspecified && timeZone in tzdb &&
             OffsetsRepresentable(tzdb[timeZone].mapLocal(time.ticks))) ==> r.Success?
  {
    var guards := [Ensure.IsNotNull(Ensure.Object(time), Some("time")),
                   Ensure.DateTimeKindIsUnspecified(time, Some("time"))];
    :- Ensure.All(guards);
    assert guards[1].Pass?;
    var localTime := LocalAt(cal, time.ticks);
    var dateTimeZone :- GetZone(tzdb, timeZone);
    var inZone := LocalInZone(localTime, dateTimeZone, cal);
    ToDateTimeOffsetSafe(inZone)
  }

  /** A reading the zone shows once or twice keeps its clock time through the
      conversion unless the chosen instant is out of range, and in an overlap
      it takes the later occurrence's offset, truncated to whole minutes. */
  lemma LocalConversionKeepsReading(time: DateTime, timeZone: string, tzdb: Tzdb, cal: Calendar)
    requires time.kind == Unspecified && timeZone in tzdb
    requires var m := tzdb[timeZone].mapLocal(time.ticks);
             !m.Skipped? && OffsetsRepresentable(m)
    requires MinValueInstant <= LocalInZone(LocalAt(cal, time.ticks), tzdb[timeZone], cal).ToInstant() <= MaxValueInstant
    ensures var r := ToDateTimeOffsetInTimeZone(time, timeZone, tzdb, cal);
            var m := tzdb[timeZone].mapLocal(time.ticks);
            && r.Success?
            && r.value.dateTime == time.ticks
            && (m.Ambiguous? ==> TruncatesTo(m.lateOffset, TicksPerMinute, r.value.offset.ticks))
            && (m.Unique? ==> TruncatesTo(m.offset, TicksPerMinute, r.value.offset.ticks))
  {
  }

  /** A skipped reading comes out moved forward by the length of the gap,
      at the offset after the gap, unless that moves it past DateTime's range
      or its instant lies outside DateTimeOffset's. */
  lemma LocalConversionShiftsGap(time: DateTime, timeZone: string, tzdb: Tzdb, cal: Calendar)
    requires time.kind == Unspecified && timeZone in tzdb
    requires var m := tzdb[timeZone].mapLocal(time.ticks);
             m.Skipped? && m.Valid() && OffsetsRepresentable(m)
    requires var m := tzdb[timeZone].mapLocal(time.ticks);
             time.ticks + (m.offsetAfter - m.offsetBefore) <= MaxTicks
    ensures var r := ToDateTimeOffsetInTimeZone(time, timeZone, tzdb, cal);
            var m := tzdb[timeZone].mapLocal(time.ticks);
            && r.Success?
            && (MinValueInstant <= time.ticks - m.offsetBefore <= MaxValueInstant ==>
                  && r.value.dateTime == time.ticks + (m.offsetAfter - m.offsetBefore)
                  && TruncatesTo(m.offsetAfter, TicksPerMinute, r.value.offset.ticks))
  {
  }

  /** A reading whose resolved instant, or whose resolved clock time, falls
      outside the range of DateTimeOffset comes out as MinValue or MaxValue.
      The resolved instant is the reading minus the later offset of an
      overlap, or minus the offset before a gap; the resolved clock time is
      the reading itself, or for a gap the reading moved forward by the gap.
      Only a gap can move the clock time out of range. */
  lemma LocalConversionClamps(time: DateTime, timeZone: string, tzdb: Tzdb, cal: Calendar)
    requires time.kind == Unspecified && timeZone in tzdb
    ensures var m := tzdb[timeZone].mapLocal(time.ticks);
            var instant := match m
              case Unique(o) => time.ticks - o
              case Ambiguous(_, later) => time.ticks - later
              case Skipped(before, _) => time.ticks - before;
            var reading := match m
              case Skipped(before, after) => time.ticks + (after - before)
              case _ => time.ticks;
            var r := ToDateTimeOffsetInTimeZone(time, timeZone, tzdb, cal);
            && (instant > MaxValueInstant ==> r == Success(MaxValue))
            && (instant < MinValueInstant ==> r == Success(MinValue))
            && (MinValueInstant <= instant <= MaxValueInstant && reading > MaxTicks ==> r == Success(MaxValue))
            && (MinValueInstant <= instant <= MaxValueInstant && reading < MinTicks ==> r == Success(MinValue))
            && (!m.Skipped? ==> MinTicks <= reading <= MaxTicks)
  {
  }

  /** With the resolved instant and clock time both in range, the conversion
      succeeds exactly when the chosen offset (the one offset, the later
      offset of an overlap, or the offset after a gap) is under 14 hours
      plus a minute: it then keeps the clock time with the offset truncated
      to whole minutes, and otherwise the constructor's ArgumentOutOfRange
      on "offset" escapes. */
  lemma LocalConversionInRange(time: DateTime, timeZone: string, tzdb: Tzdb, cal: Calendar)
    requires time.kind == Unspecified && timeZone in tzdb
    ensures var m := tzdb[timeZone].mapLocal(time.ticks);
            var chosen := match m
              case Unique(o) => o
              case Ambiguous(_, later) => later
              case Skipped(_, after) => after;
            var instant := match m
              case Unique(o) => time.ticks - o
              case Ambiguous(_, later) => time.ticks - later
              case Skipped(before, _) => time.ticks - before;
            var reading := match m
              case Skipped(before, after) => time.ticks + (after - before)
              case _ => time.ticks;
            var r := ToDateTimeOffsetInTimeZone(time, timeZone, tzdb, cal);
            MinValueInstant <= instant <= MaxValueInstant && MinTicks <= reading <= MaxTicks ==>
              && (r.Success? <==> Abs(chosen) < MaxDateTimeOffsetOffset + TicksPerMinute)
              && (r.Success? ==>
                    && r.value.dateTime == reading
                    && TruncatesTo(chosen, TicksPerMinute, r.value.offset.ticks))
              && (r.Failure? ==> r.error == ArgumentOutOfRange(Some("offset"), Some(OffsetOutOfRange)))
  {
  }

  /** A UTC time in a zone whose offset there is a whole number of minutes
      comes back as exactly the same instant, when its reading is in range. */
  lemma InTimeZoneKeepsInstant(time: DateTimeOffset, timeZone: string, tzdb: Tzdb, cal: Calendar)
    requires time.Valid() && timeZone in tzdb
    requires var zone := tzdb[timeZone];
             && zone.offsetAt(time.UtcTicks()) % TicksPerMinute == 0
             && Abs(zone.offsetAt(time.UtcTicks())) <= MaxDateTimeOffsetOffset
             && MinTicks <= ReadingAt(zone, time.UtcTicks()) <= MaxTicks
    ensures var r := InTimeZoneOffset(time, timeZone, tzdb, cal);
            && r.Success?
            && r.value.UtcTicks() == time.UtcTicks()
            && r.value.offset.ticks == tzdb[timeZone].offsetAt(time.UtcTicks())
  {
    var offset := tzdb[timeZone].offsetAt(time.UtcTicks());
    var r := InTimeZoneOffset(time, timeZone, tzdb, cal);
    assert TruncatesTo(offset, TicksPerMinute, offset);
    TruncationIsUnique(offset, TicksPerMinute, offset, r.value.offset.ticks);
  }
}

=== FILE: ensure.dfy ===
/** The argument guards: each checks one condition and either passes,
    with no other effect, or fails with the exception the C# helper throws. */
module Ensure {
  import opened Outcomes
  import opened Time

  /** An object reference, which may be null. */
  datatype Reference<T> = Null | Object(target: T)

  /** Fails with ArgumentNull, naming the parameter, exactly when the
      reference is null. */
  function IsNotNull<T>(value: Reference<T>, paramName: Option<string>): (r: Outcome)
    ensures r.Pass? <==> value.Object?
    ensures r.Fail? ==> r.error == ArgumentNull(paramName)
  {
    if value.Null? then Fail(ArgumentNull(paramName)) else Pass
  }

  /** The three-argument form: fails with Argument, carrying the message and
      parameter name, exactly when the condition is false. */
  function IsTrue(condition: bool, message: Option<Message>, paramName: Option<string>): (r: Outcome)
    ensures r.Pass? <==> condition
    ensures r.Fail? ==> r.error == Argument(message, paramName)
  {
    if !condition then Fail(Argument(message, paramName)) else Pass
  }

  /** The two-argument form: no parameter name. */
  function IsTrueWithMessage(condition: bool, message: Option<Message>): (r: Outcome)
    ensures r.Pass? <==> condition
    ensures r.Fail? ==> r.error == Argument(message, None)
  {
    IsTrue(condition, message, None)
  }

  /** The one-argument form: neither message nor parameter name. */
  function IsTrueCondition(condition: bool): (r: Outcome)
    ensures r.Pass? <==> condition
    ensures r.Fail? ==> r.error == Argument(None, None)
  {
    IsTrueWithMessage(condition, None)
  }

  /** Accepts only a DateTime whose kind is Utc. */
  function DateTimeKindIsUtc(dateTime: DateTime, paramName: Option<string>): (r: Outcome)
    ensures r.Pass? <==> dateTime.kind == Utc
    ensures r.Fail? ==> r.error == Argument(Some(TimeMustBeUtc), paramName)
  {
    IsTrue(dateTime.kind == Utc, Some(TimeMustBeUtc), paramName)
  }

  /** Accepts only a DateTime whose kind is Unspecified. */
  function DateTimeKindIsUnspecified(dateTime: DateTime, paramName: Option<string>): (r: Outcome)
    ensures r.Pass? <==> dateTime.kind == Unspecified
    ensures r.Fail? ==> r.error == Argument(Some(TimeMustBeUnspecified), paramName)
  {
    IsTrue(dateTime.kind == Unspecified, Some(TimeMustBeUnspecified), paramName)
  }

  /** Guards called one after another, as statements: the first that fails
      throws, so its exception is the one raised and the later guards do not
      matter; when none fails, the sequence passes. */
  function All(guards: seq<Outcome>): (r: Outcome)
    ensures r.Pass? <==> forall i :: 0 <= i < |guards| ==> guards[i].Pass?
    ensures forall i ::
              (0 <= i < |guards| && guards[i].Fail? && forall j :: 0 <= j < i ==> guards[j].Pass?)
              ==> r == guards[i]
  {
    if |guards| == 0 then
      Pass
    else if guards[0].Fail? then
      guards[0]
    else
      var rest := All(guards[1..]);
      assert forall i :: 1 <= i < |guards| ==> guards[i] == guards[1..][i - 1];
      rest
  }

  /** A summary, not a result: the shorter IsTrue overloads behave as the
      three-argument form with the missing arguments null, which holds by
      their delegating bodies, and the null guard and the condition guard
      never raise the same exception, which holds because ArgumentNull and
      Argument are distinct constructors. */
  lemma OverloadsAgree(condition: bool, message: Option<Message>, paramName: Option<string>)
    ensures IsTrueWithMessage(condition, message) == IsTrue(condition, message, None)
    ensures IsTrueCondition(condition) == IsTrue(condition, None, None)
    ensures forall v: Reference<bool> ::
              IsNotNull(v, paramName).Fail? && IsTrue(condition, message, paramName).Fail? ==>
                IsNotNull(v, paramName).error != IsTrue(condition, message, paramName).error
  {
  }

  /** A summary, not a result: it follows directly from the two kind
      guards' contracts. Utc passes only the first, Unspecified only the
      second, and Local neither. */
  lemma KindGuardsPartition(dateTime: DateTime, paramName: Option<string>)
    ensures dateTime.kind == Local ==>
              DateTimeKindIsUtc(dateTime, paramName).Fail? && DateTimeKindIsUnspecified(dateTime, paramName).Fail?
    ensures !(DateTimeKindIsUtc(dateTime, paramName).Pass? && DateTimeKindIsUnspecified(dateTime, paramName).Pass?)
  {
  }
}

=== FILE: flooring.dfy ===
/** The engine's "floor" of tick counts: C#'s truncating division followed
    by multiplication, which moves a number toward zero onto a multiple of
    the significance. */
module Flooring {
  import opened Time

  function Abs(x: int): nat {
    if x < 0 then -x else x
  }

  lemma AbsOfProduct(x: int, y: int)
    ensures Abs(x * y) == Abs(x) * Abs(y)
  {
    if x < 0 && y < 0 {
      assert x * y == (-x) * (-y);
    } else if x < 0 {
      assert x * y == -((-x) * y);
    } else if y < 0 {
      assert x * y == -(x * (-y));
    }
  }

  lemma ProductAtLeast(x: nat, y: nat)
    requires y >= 1
    ensures x * y >= x
  {
    var z: nat := y - 1;
    assert x * y == x * z + x;
    assert x * z >= 0;
  }

  /** A non-zero multiple of s is at least |s| away from zero. */
  lemma NonZeroMultipleIsLarge(s: int, k: int)
    requires k != 0
    ensures Abs(s * k) >= Abs(s)
  {
    AbsOfProduct(s, k);
    ProductAtLeast(Abs(s), Abs(k));
  }

  lemma MultipleHasZeroRemainder(s: int, q: int)
    requires s != 0
    ensures (s * q) % s == 0
  {
    var d := (s * q) / s;
    var rem := (s * q) % s;
    assert s * q == s * d + rem;
    assert s * (q - d) == s * q - s * d;
    if q != d {
      NonZeroMultipleIsLarge(s, q - d);
      assert false;
    }
  }

  lemma ZeroRemainderIsMultiple(r: int, s: int)
    requires s != 0 && r % s == 0
    ensures r == s * (r / s)
  {
  }

  lemma NegateFactor(x: int, y: int)
    ensures (-x) * y == -(x * y)
    ensures x * (-y) == -(x * y)
    ensures (-x) * (-y) == x * y
  {
  }

  lemma DivMod(x: nat, y: nat)
    requires y > 0
    ensures x == y * (x / y) + x % y && 0 <= x % y < y
  {
  }

  /** Giving the quotient of the magnitudes the sign of a truncated quotient
      leaves a remainder with the sign of the dividend. */
  lemma SignedQuotient(a: int, b: int, m: int, rem: int, q: int)
    requires b != 0
    requires Abs(a) == Abs(b) * m + rem && 0 <= rem < Abs(b)
    requires q == if (a < 0) == (b < 0) then m else -m
    ensures a - b * q == if a < 0 then -rem else rem
    ensures Abs(a - b * q) < Abs(b)
    ensures a >= 0 ==> a - b * q >= 0
    ensures a <= 0 ==> a - b * q <= 0
  {
    NegateFactor(b, m);
    NegateFactor(-b, m);
    if b < 0 {
      assert Abs(b) * m == -(b * m);
    }
  }

  /** C#'s `/` on integers: the quotient truncated toward zero, so the
      remainder takes the sign of the dividend. */
  function Quotient(a: int, b: int): (q: int)
    requires b != 0
    ensures Abs(a - b * q) < Abs(b)
    ensures a >= 0 ==> a - b * q >= 0
    ensures a <= 0 ==> a - b * q <= 0
  {
    var m := Abs(a) / Abs(b);
    var q := if (a < 0) == (b < 0) then m else -m;
    DivMod(Abs(a), Abs(b));
    SignedQuotient(a, b, m, Abs(a) % Abs(b), q);
    q
  }

  /** The reference meaning of the engine's "floor": r is a multiple of s
      that lies between 0 and n, less than one |s| away from n. That is n
      moved toward zero onto a multiple of s, which is rounding down only
      when n is not negative. */
  predicate TruncatesTo(n: int, s: int, r: int) {
    && s != 0
    && r % s == 0
    && Abs(n - r) < Abs(s)
    && (n >= 0 ==> 0 <= r <= n)
    && (n <= 0 ==> n <= r <= 0)
  }

  /** Multiplying a truncated quotient back truncates the dividend. */
  lemma QuotientTimesDivisorTruncates(n: int, s: int, q: int)
    requires s != 0
    requires Abs(n - s * q) < Abs(s)
    requires n >= 0 ==> n - s * q >= 0
    requires n <= 0 ==> n - s * q <= 0
    ensures TruncatesTo(n, s, s * q)
  {
    MultipleHasZeroRemainder(s, q);
    if q != 0 {
      NonZeroMultipleIsLarge(s, q);
    }
  }

  /** `Floor(long, long)`: divides with C#'s truncating `/`, then multiplies
      back. Division by zero and long.MinValue / -1 throw in C#, so callers
      must avoid them. */
  function Floor(number: int, significance: int): (r: int)
    requires IsLong(number) && IsLong(significance)
    requires significance != 0
    requires !(number == MinLong && significance == -1)
    ensures IsLong(r)
    ensures TruncatesTo(number, significance, r)
  {
    var divisions := Quotient(number, significance);
    QuotientTimesDivisorTruncates(number, significance, divisions);
    significance * divisions
  }

  /** `Floor(TimeSpan, TimeSpan)`: the tick-count floor of the span. */
  function FloorTimeSpan(timeSpan: TimeSpan, significance: TimeSpan): (r: TimeSpan)
    requires IsLong(timeSpan.ticks) && IsLong(significance.ticks)
    requires significance.ticks != 0
    requires !(timeSpan.ticks == MinLong && significance.ticks == -1)
    ensures IsLong(r.ticks)
    ensures TruncatesTo(timeSpan.ticks, significance.ticks, r.ticks)
  {
    TimeSpan(Floor(timeSpan.ticks, significance.ticks))
  }

  /** Only one value truncates n onto the multiples of s, so Floor is fully
      described by TruncatesTo. */
  lemma TruncationIsUnique(n: int, s: int, r1: int, r2: int)
    requires TruncatesTo(n, s, r1) && TruncatesTo(n, s, r2)
    ensures r1 == r2
  {
    var q1 := r1 / s;
    var q2 := r2 / s;
    ZeroRemainderIsMultiple(r1, s);
    ZeroRemainderIsMultiple(r2, s);
    assert r1 - r2 == s * (q1 - q2);
    if q1 != q2 {
      NonZeroMultipleIsLarge(s, q1 - q2);
      assert false;
    }
  }

  lemma FloorIsTheTruncation(number: int, significance: int, r: int)
    requires IsLong(number) && IsLong(significance)
    requires significance != 0
    requires !(number == MinLong && significance == -1)
    requires TruncatesTo(number, significance, r)
    ensures Floor(number, significance) == r
  {
    TruncationIsUnique(number, significance, Floor(number, significance), r);
  }

  /** Flooring twice gives the same result as flooring once. */
  lemma FloorIdempotent(number: int, significance: int)
    requires IsLong(number) && IsLong(significance)
    requires significance != 0
    requires !(number == MinLong && significance == -1)
    ensures Floor(Floor(number, significance), significance) == Floor(number, significance)
  {
    var r := Floor(number, significance);
    assert TruncatesTo(r, significance, r);
    FloorIsTheTruncation(r, significance, r);
  }

  /** For a positive significance: a non-negative number is rounded down to
      the multiple at or below it, a negative one is rounded up toward zero. */
  lemma FloorBrackets(number: int, significance: int)
    requires IsLong(number) && IsLong(significance)
    requires significance > 0
    ensures number >= 0 ==>
              Floor(number, significance) <= number < Floor(number, significance) + significance
    ensures number < 0 ==>
              number <= Floor(number, significance) < number + significance
    ensures Abs(Floor(number, significance)) <= Abs(number)
  {
  }

  /** Rounding a non-negative number or an exact multiple down already
      moves it toward zero. */
  lemma RoundingDownTruncates(number: int, significance: int)
    requires significance > 0
    requires number >= 0 || number % significance == 0
    ensures TruncatesTo(number, significance, significance * (number / significance))
  {
    var q := number / significance;
    assert number == significance * q + number % significance;
    QuotientTimesDivisorTruncates(number, significance, q);
  }

  /** A negative number that is not a multiple truncates to one significance
      above its rounded-down value. */
  lemma RoundingUpTruncates(number: int, significance: int)
    requires significance > 0
    requires number < 0 && number % significance != 0
    ensures TruncatesTo(number, significance, significance * (number / significance) + significance)
  {
    var q := number / significance;
    assert number == significance * q + number % significance;
    assert significance * (q + 1) == significance * q + significance;
    QuotientTimesDivisorTruncates(number, significance, q + 1);
  }

  /** Floor agrees with rounding down (Dafny's `/` on a positive divisor) on
      exactly the non-negative numbers and the exact multiples; any other
      negative number ends up one significance above its rounded-down value. */
  lemma FloorRoundsDownIff(number: int, significance: int)
    requires IsLong(number) && IsLong(significance)
    requires significance > 0
    ensures (Floor(number, significance) == significance * (number / significance))
              <==> (number >= 0 || number % significance == 0)
    ensures number < 0 && number % significance != 0 ==>
              Floor(number, significance) == significance * (number / significance) + significance
  {
    var down := significance * (number / significance);
    if number >= 0 || number % significance == 0 {
      RoundingDownTruncates(number, significance);
      FloorIsTheTruncation(number, significance, down);
    } else {
      RoundingUpTruncates(number, significance);
      FloorIsTheTruncation(number, significance, down + significance);
    }
  }
}

=== FILE: outcomes.dfy ===
/** Values standing in for the exceptions the conversion engine throws.
    A modelled path that throws returns a Fail or Failure carrying one of
    these instead, so the error cases can be stated and proved about. */
module Outcomes {

  /** A value that may be absent: C#'s null for strings and messages. */
  datatype Option<+T> = None | Some(value: T)

  /** The resource messages the engine attaches to its exceptions. Only
      the identity of each resource is kept, not its text. */
  datatype Message =
    | TimeMustBeUtc
    | TimeMustBeUnspecified
    | OffsetPrecision
    | OffsetOutOfRange
    | UtcOutOfRange
    | OffsetUtcMismatch
    | OffsetLocalMismatch

  /** The exception kinds that can escape the conversion engine. */
  datatype Exception =
    | ArgumentNull(paramName: Option<string>)
    | Argument(message: Option<Message>, paramName: Option<string>)
    | ArgumentOutOfRange(paramName: Option<string>, message: Option<Message>)
    | TimeZoneNotFound(id: string)

  /** The result of a guard that returns nothing when it passes. A failing
      guard ends the enclosing operation with its exception, so `:- guard;`
      reads as the guard statement does in C#. */
  datatype Outcome = Pass | Fail(error: Exception) {

    predicate IsFailure() {
      Fail?
    }

    /** The exception, carried on as a failed operation of any result type. */
    function PropagateFailure<U>(): Result<U>
      requires Fail?
    {
      Failure(error)
    }
  }

  /** The result of an operation that returns a value or throws. */
  datatype Result<+T> = Success(value: T) | Failure(error: Exception) {

    predicate IsFailure() {
      Failure?
    }

    /** The exception, carried on with a different value type. */
    function PropagateFailure<U>(): Result<U>
      requires Failure?
    {
      Failure(error)
    }

    function Extract(): T
      requires Success?
    {
      value
    }
  }
}

=== FILE: resolution.dfy ===
/** The policy by which the engine turns a wall-clock reading into a zoned
    reading when the zone shows that reading twice or not at all. */
module Resolution {
  import opened Time
  import opened Zones


  /** `DefaultResolver`, which combines `Resolvers.ReturnLater` for repeated
      readings with `Resolvers.ReturnForwardShifted` for skipped ones. It is
      total: every reading resolves. */
  function DefaultResolver(local: LocalDateTime, mapping: ZoneLocalMapping, cal: Calendar): (z: ZonedDateTime)
    ensures !mapping.Skipped? ==> z.local == local
    ensures mapping.Ambiguous? ==> z.offset == mapping.lateOffset
    ensures mapping.Ambiguous? && mapping.Valid() ==> z.ToInstant() > local.ticks - mapping.earlyOffset
    ensures mapping.Skipped? ==>
              && z.local.ticks == local.ticks + (mapping.offsetAfter - mapping.offsetBefore)
              && z.offset == mapping.offsetAfter
              && z.ToInstant() == local.ticks - mapping.offsetBefore
  {
    match mapping
    case Unique(offset) => ZonedDateTime(local, offset)
    case Ambiguous(_, later) => ZonedDateTime(local, later)
    case Skipped(before, after) => ZonedDateTime(LocalAt(cal, local.ticks + (after - before)), after)
  }

  /** `LocalDateTime.InZone(zone, DefaultResolver)`. */
  function LocalInZone(local: LocalDateTime, zone: DateTimeZone, cal: Calendar): (z: ZonedDateTime)
    ensures zone.mapLocal(local.ticks).Unique? ==> z == ZonedDateTime(local, zone.mapLocal(local.ticks).offset)
  {
    DefaultResolver(local, zone.mapLocal(local.ticks), cal)
  }

  /** A reading the zone shows once or twice resolves to one of the instants
      at which the zone shows it, and for a repeated reading to the later of
      the two; a skipped reading has no such instant. */
  lemma ResolvedIsLatestCandidate(local: LocalDateTime, mapping: ZoneLocalMapping, cal: Calendar)
    requires mapping.Valid()
    ensures var z := DefaultResolver(local, mapping, cal);
            && (!mapping.Skipped? <==> z.ToInstant() in Candidates(local.ticks, mapping))
            && (forall t :: t in Candidates(local.ticks, mapping) ==> t <= z.ToInstant())
  {
    var z := DefaultResolver(local, mapping, cal);
    match mapping
    case Unique(o) =>
      assert Candidates(local.ticks, mapping) == {local.ticks - o};
    case Ambiguous(e, l) =>
      assert Candidates(local.ticks, mapping) == {local.ticks - e, local.ticks - l};
    case Skipped(_, _) =>
  }

  /** Whatever the policy picks is a genuine reading of the zone: the offset
      it carries is the zone's offset at the instant it denotes. */
  lemma ResolvedOffsetIsZoneOffset(local: LocalDateTime, zone: DateTimeZone, cal: Calendar)
    requires MappingAgrees(zone, local.ticks)
    ensures zone.offsetAt(LocalInZone(local, zone, cal).ToInstant()) == LocalInZone(local, zone, cal).offset
  {
  }

  /** A skipped reading resolves to exactly what the zone shows at the
      instant the reading would have had under the offset before the gap:
      the reading moved forward by the length of the gap. */
  lemma SkippedResolvesForward(local: LocalDateTime, zone: DateTimeZone, cal: Calendar)
    requires MappingAgrees(zone, local.ticks)
    requires zone.mapLocal(local.ticks).Skipped?
    ensures LocalInZone(local, zone, cal)
              == InZone(local.ticks - zone.mapLocal(local.ticks).offsetBefore, zone, cal)
    ensures zone.mapLocal(local.ticks).Valid() ==> LocalInZone(local, zone, cal).local.ticks > local.ticks
  {
  }

  /** A repeated reading resolves to the later occurrence, not the earlier
      one the policy's comment names: the two differ by the length of the
      overlap. */
  lemma AmbiguousResolvesLater(local: LocalDateTime, zone: DateTimeZone, cal: Calendar)
    requires zone.mapLocal(local.ticks).Ambiguous? && zone.mapLocal(local.ticks).Valid()
    ensures var m := zone.mapLocal(local.ticks);
            var earlier := ZonedDateTime(local, m.earlyOffset);
            var z := LocalInZone(local, zone, cal);
            && z.offset == m.lateOffset
            && z.ToInstant() - earlier.ToInstant() == m.earlyOffset - m.lateOffset > 0
  {
  }
}

=== FILE: safe_conversion.dfy ===
/** The conversion of a zoned reading to a DateTimeOffset that never lets a
    value outside DateTimeOffset's range through: out-of-range instants and
    years are replaced by MinValue or MaxValue, and the offset loses its
    seconds. */
module SafeConversion {
  import opened Outcomes
  import opened Time
  import opened Flooring


  /** `Instant.FromDateTimeOffset` of DateTimeOffset.MaxValue and MinValue. */
  const MaxValueInstant: int := MaxValue.UtcTicks()
  const MinValueInstant: int := MinValue.UtcTicks()

  predicate InstantInRange(z: ZonedDateTime) {
    MinValueInstant <= z.ToInstant() <= MaxValueInstant
  }

  predicate YearInRange(z: ZonedDateTime) {
    MinYear <= z.local.year <= MaxYear
  }

  /** `LocalDateTime.ToDateTimeUnspecified`, for a year DateTime can hold. */
  function ToDateTimeUnspecified(local: LocalDateTime): (d: DateTime)
    requires MinYear <= local.year <= MaxYear
    ensures d.ticks == local.ticks && d.kind == Unspecified
  {
    DateTime(local.ticks, Unspecified)
  }

  /** `LocalDateTime.FromDateTime` followed by `ToDateTimeUnspecified` gives
      back the Unspecified DateTime it started from, for any calendar. */
  lemma UnspecifiedRoundTrip(d: DateTime, cal: Calendar)
    requires d.kind == Unspecified
    ensures var local := LocalAt(cal, d.ticks);
            && MinYear <= local.year <= MaxYear
            && ToDateTimeUnspecified(local) == d
  {
  }

  lemma ProductMonotone(x: nat, a: nat, b: nat)
    requires a <= b
    ensures x * a <= x * b
  {
    var d: nat := b - a;
    assert x * b == x * a + x * d;
  }

  /** A whole number of minutes less than a minute past the 14-hour limit
      is within the limit. */
  lemma WholeMinutesWithinLimit(f: int)
    requires f % TicksPerMinute == 0
    requires Abs(f) < MaxDateTimeOffsetOffset + TicksPerMinute
    ensures Abs(f) <= MaxDateTimeOffsetOffset
  {
    var k := f / TicksPerMinute;
    ZeroRemainderIsMultiple(f, TicksPerMinute);
    AbsOfProduct(TicksPerMinute, k);
    if Abs(k) > 840 {
      ProductMonotone(TicksPerMinute, 841, Abs(k));
      assert false;
    }
    ProductMonotone(TicksPerMinute, Abs(k), 840);
  }

  /** The facts about the truncated offset that make the constructor at the
      end of ToDateTimeOffsetSafe succeed exactly when the zone's offset is
      less than a minute past 14 hours: truncating toward zero moves the UTC
      instant from the zone's instant toward the local reading, and both of
      those lie in DateTime's range. */
  lemma TruncatedOffsetFits(local: int, offset: int, floored: int)
    requires MinTicks <= local <= MaxTicks
    requires MinTicks <= local - offset <= MaxTicks
    requires TruncatesTo(offset, TicksPerMinute, floored)
    ensures MinTicks <= local - floored <= MaxTicks
    ensures (-MaxDateTimeOffsetOffset <= floored <= MaxDateTimeOffsetOffset)
              <==> (Abs(offset) < MaxDateTimeOffsetOffset + TicksPerMinute)
  {
    if Abs(offset) < MaxDateTimeOffsetOffset + TicksPerMinute {
      WholeMinutesWithinLimit(floored);
    }
  }

  /** `ToDateTimeOffsetSafe`: clamps a zoned reading to the range of
      DateTimeOffset, checking in order the instant against MaxValue, the
      instant against MinValue, the local year against 9999 and the local
      year against 1, and otherwise keeps the local reading with its offset
      truncated to whole minutes. */
  function ToDateTimeOffsetSafe(z: ZonedDateTime): (r: Result<DateTimeOffset>)
    ensures z.ToInstant() > MaxValueInstant ==> r == Success(MaxValue)
    ensures z.ToInstant() < MinValueInstant ==> r == Success(MinValue)
    ensures InstantInRange(z) && z.local.year > MaxYear ==> r == Success(MaxValue)
    ensures InstantInRange(z) && z.local.year < MinYear ==> r == Success(MinValue)
    ensures InstantInRange(z) && YearInRange(z) ==>
              (r.Success? <==> Abs(z.offset) < MaxDateTimeOffsetOffset + TicksPerMinute)
    ensures InstantInRange(z) && YearInRange(z) && r.Success? ==>
              && r.value.dateTime == z.local.ticks
              && TruncatesTo(z.offset, TicksPerMinute, r.value.offset.ticks)
    ensures r.Success? ==> r.value.Valid()
    ensures r.Failure? ==> r.error == ArgumentOutOfRange(Some("offset"), Some(OffsetOutOfRange))
  {
    var timeInstant := z.ToInstant();
    if timeInstant > MaxValueInstant then
      Success(MaxValue)
    else if timeInstant < MinValueInstant then
      Success(MinValue)
    else if z.local.year > MaxYear then
      Success(MaxValue)
    else if z.local.year < MinYear then
      Success(MinValue)
    else
      var offsetFloored := FloorTimeSpan(TimeSpan(z.offset), OneMinute);
      TruncatedOffsetFits(z.local.ticks, z.offset, offsetFloored.ticks);
      // The DateTime is Unspecified, so the machine's offset is never read.
      NewDateTimeOffset(ToDateTimeUnspecified(z.local), offsetFloored, TimeSpan(0))
  }

  /** The instant checks come first: once the instant is out of range the
      year is not consulted. The year here may only move within its band
      (a year of a calendar for the same ticks), so the year checks would
      have answered alike; the precedence itself, with no hypothesis on the
      year, is stated by the first two ensures of ToDateTimeOffsetSafe. */
  lemma InstantChecksWin(z: ZonedDateTime, year: int)
    requires YearMatchesTicks(z.local.ticks, year)
    ensures var moved := ZonedDateTime(LocalFields(z.local.ticks, year), z.offset);
            !InstantInRange(z) ==> ToDateTimeOffsetSafe(moved) == ToDateTimeOffsetSafe(z)
  {
  }

  /** In range, the result denotes an instant less than a minute from the
      zoned one, shifted toward the local reading, and never an offset with
      seconds in it. */
  lemma SafeConversionStaysWithinAMinute(z: ZonedDateTime)
    requires InstantInRange(z) && YearInRange(z)
    requires ToDateTimeOffsetSafe(z).Success?
    ensures var d := ToDateTimeOffsetSafe(z).value;
            && d.offset.ticks % TicksPerMinute == 0
            && Abs(d.UtcTicks() - z.ToInstant()) < TicksPerMinute
            && (z.offset >= 0 ==> z.ToInstant() <= d.UtcTicks())
            && (z.offset <= 0 ==> d.UtcTicks() <= z.ToInstant())
  {
  }

  /** A representable DateTimeOffset read as a zoned value and converted
      back comes out unchanged: the clamp is the identity on its own range. */
  lemma SafeConversionRoundTrip(d: DateTimeOffset, cal: Calendar)
    requires d.Valid()
    ensures ToDateTimeOffsetSafe(ZonedDateTime(LocalAt(cal, d.dateTime), d.offset.ticks)) == Success(d)
  {
    var z := ZonedDateTime(LocalAt(cal, d.dateTime), d.offset.ticks);
    var r := ToDateTimeOffsetSafe(z);
    assert TruncatesTo(d.offset.ticks, TicksPerMinute, d.offset.ticks);
    TruncationIsUnique(d.offset.ticks, TicksPerMinute, d.offset.ticks, r.value.offset.ticks);
  }

  /** Rounding the offset down, as the method's comment says, instead of
      toward zero as its code does, would break the constructor: a reading
      30 seconds before DateTime.MaxValue at offset -00:00:30 keeps its
      instant in range under truncation but would move past MaxValue with
      the offset rounded down to -00:01. */
  lemma RoundingDownWouldOverflow()
    ensures var local := MaxTicks - 30 * TicksPerSecond;
            var z := ZonedDateTime(LocalFields(local, MaxYear), -30 * TicksPerSecond);
            && InstantInRange(z)
            && ToDateTimeOffsetSafe(z) == Success(DateTimeOffset(local, TimeSpan(0)))
            && NewDateTimeOffset(DateTime(local, Unspecified), TimeSpan(-TicksPerMinute), TimeSpan(0)).Failure?
  {
    var local := MaxTicks - 30 * TicksPerSecond;
    var z := ZonedDateTime(LocalFields(local, MaxYear), -30 * TicksPerSecond);
    assert TruncatesTo(z.offset, TicksPerMinute, 0);
    FloorIsTheTruncation(z.offset, TicksPerMinute, 0);
  }
}

=== FILE: time.dfy ===
/** The value types the conversion engine consumes and produces: the .NET
    DateTime, TimeSpan and DateTimeOffset structs, and NodaTime's
    LocalDateTime, Offset and ZonedDateTime. All times are counts of
    100-nanosecond ticks since 0001-01-01T00:00 (the .NET epoch); NodaTime's
    instants, which count from 1970, differ from these by a constant. */
module Time {
  import opened Outcomes

  /** The range of C#'s 64-bit `long`. */
  const MinLong: int := -0x8000_0000_0000_0000
  const MaxLong: int := 0x7FFF_FFFF_FFFF_FFFF

  predicate IsLong(x: int) {
    MinLong <= x <= MaxLong
  }

  const TicksPerSecond: int := 10_000_000
  const TicksPerMinute: int := 60 * TicksPerSecond
  const TicksPerHour: int := 60 * TicksPerMinute

  /** The ticks of DateTime.MinValue (0001-01-01T00:00:00) and of
      DateTime.MaxValue (9999-12-31T23:59:59.9999999), and their years. */
  const MinTicks: int := 0
  const MaxTicks: int := 3_155_378_975_999_999_999
  const MinYear: int := 1
  const MaxYear: int := 9999

  /** A DateTimeOffset offset lies within 14 hours of UTC. */
  const MaxDateTimeOffsetOffset: int := 14 * TicksPerHour

  /** A NodaTime Offset lies within 18 hours of UTC. */
  const MaxZoneOffset: int := 18 * TicksPerHour

  /** The ticks a DateTime can hold. */
  type Ticks = t: int | MinTicks <= t <= MaxTicks

  /** A zone offset (local time minus UTC), in ticks. */
  type Offset = o: int | -MaxZoneOffset <= o <= MaxZoneOffset

  datatype DateTimeKind = Unspecified | Utc | Local

  datatype DateTime = DateTime(ticks: Ticks, kind: DateTimeKind)

  datatype TimeSpan = TimeSpan(ticks: int)

  /** TimeSpan.FromMinutes(1). */
  const OneMinute: TimeSpan := TimeSpan(TicksPerMinute)

  /** A local clock reading paired with its offset from UTC. */
  datatype DateTimeOffset = DateTimeOffset(dateTime: Ticks, offset: TimeSpan) {

    /** The UTC instant this value denotes. */
    function UtcTicks(): int {
      dateTime - offset.ticks
    }

    /** The clock reading alone, as the `DateTime` property returns it. */
    function ClockTime(): DateTime {
      DateTime(dateTime, Unspecified)
    }

    /** What the DateTimeOffset constructor checks: a whole number of
        minutes, at most 14 hours, and a UTC instant DateTime can hold. */
    predicate Valid() {
      && offset.ticks % TicksPerMinute == 0
      && -MaxDateTimeOffsetOffset <= offset.ticks <= MaxDateTimeOffsetOffset
      && MinTicks <= UtcTicks() <= MaxTicks
    }
  }

  const MinValue: DateTimeOffset := DateTimeOffset(MinTicks, TimeSpan(0))
  const MaxValue: DateTimeOffset := DateTimeOffset(MaxTicks, TimeSpan(0))

  /** What the constructor demands of the DateTime's kind: a Utc time takes
      only a zero offset, and a Local time only the offset the machine's
      zone has at that time; an Unspecified time takes any offset. */
  predicate KindAgrees(dateTime: DateTime, offset: TimeSpan, machineOffset: TimeSpan) {
    && (dateTime.kind == Utc ==> offset.ticks == 0)
    && (dateTime.kind == Local ==> offset == machineOffset)
  }

  /** `new DateTimeOffset(dateTime, offset)`: builds the value or throws,
      checking the offset against the DateTime's kind, then its precision,
      then its size, then the UTC instant. The machine's local zone is
      ambient state, so its offset at `dateTime` is a parameter here. */
  function NewDateTimeOffset(dateTime: DateTime, offset: TimeSpan, machineOffset: TimeSpan)
    : (r: Result<DateTimeOffset>)
    ensures r.Success? <==>
              KindAgrees(dateTime, offset, machineOffset) && DateTimeOffset(dateTime.ticks, offset).Valid()
    ensures r.Success? ==> r.value.dateTime == dateTime.ticks && r.value.offset == offset
    ensures dateTime.kind == Utc && offset.ticks != 0 ==>
              r == Failure(Argument(Some(OffsetUtcMismatch), Some("offset")))
    ensures dateTime.kind == Local && offset != machineOffset ==>
              r == Failure(Argument(Some(OffsetLocalMismatch), Some("offset")))
    ensures KindAgrees(dateTime, offset, machineOffset) && offset.ticks % TicksPerMinute != 0 ==>
              r == Failure(Argument(Some(OffsetPrecision), Some("offset")))
    ensures r.Failure? && KindAgrees(dateTime, offset, machineOffset) && offset.ticks % TicksPerMinute == 0 ==>
              r.error.ArgumentOutOfRange? && r.error.paramName == Some("offset")
  {
    if dateTime.kind == Utc && offset.ticks != 0 then
      Failure(Argument(Some(OffsetUtcMismatch), Some("offset")))
    else if dateTime.kind == Local && offset != machineOffset then
      Failure(Argument(Some(OffsetLocalMismatch), Some("offset")))
    else if offset.ticks % TicksPerMinute != 0 then
      Failure(Argument(Some(OffsetPrecision), Some("offset")))
    else if offset.ticks < -MaxDateTimeOffsetOffset || offset.ticks > MaxDateTimeOffsetOffset then
      Failure(ArgumentOutOfRange(Some("offset"), Some(OffsetOutOfRange)))
    else if dateTime.ticks - offset.ticks < MinTicks || dateTime.ticks - offset.ticks > MaxTicks then
      Failure(ArgumentOutOfRange(Some("offset"), Some(UtcOutOfRange)))
    else
      Success(DateTimeOffset(dateTime.ticks, offset))
  }

  /** For an Unspecified DateTime the machine's zone is never consulted:
      the constructor gives the same result whatever its offset, and a Utc
      time with a zero offset is treated just as an Unspecified one. */
  lemma ConstructorIgnoresMachineZone(ticks: Ticks, offset: TimeSpan, machine1: TimeSpan, machine2: TimeSpan)
    ensures NewDateTimeOffset(DateTime(ticks, Unspecified), offset, machine1)
            == NewDateTimeOffset(DateTime(ticks, Unspecified), offset, machine2)
    ensures offset.ticks == 0 ==>
              NewDateTimeOffset(DateTime(ticks, Utc), offset, machine1)
              == NewDateTimeOffset(DateTime(ticks, Unspecified), offset, machine2)
  {
  }

  /** How the proleptic Gregorian calendar ties a year to a tick count:
      years before 1 are exactly the ticks before 0, years after 9999 are
      exactly the ticks after DateTime.MaxValue. The full calendar is not
      part of this model; this band property is all the engine relies on. */
  predicate YearMatchesTicks(ticks: int, year: int) {
    && (year < MinYear <==> ticks < MinTicks)
    && (year > MaxYear <==> ticks > MaxTicks)
  }

  datatype LocalFields = LocalFields(ticks: int, year: int)

  /** A NodaTime LocalDateTime: a wall-clock reading with no zone, whose
      year is the calendar year of its ticks. NodaTime's range is wider
      than DateTime's, so the ticks are unbounded here. */
  type LocalDateTime = l: LocalFields | YearMatchesTicks(l.ticks, l.year)
    witness LocalFields(0, 1)

  /** A calendar's years agree with its tick counts everywhere. */
  ghost predicate IsCalendar(f: int -> int) {
    forall t :: YearMatchesTicks(t, f(t))
  }

  /** The calendar year of a wall-clock tick count. */
  type Calendar = f: int -> int | IsCalendar(f)
    witness (t: int) => if t < MinTicks then 0 else if t > MaxTicks then MaxYear + 1 else MinYear

  /** The LocalDateTime at the given wall-clock ticks, as
      `LocalDateTime.FromDateTime` builds it from a DateTime and as
      `Instant.InZone` builds the local half of its result: the same ticks,
      and a year inside 1..9999 exactly when DateTime can hold them. */
  function LocalAt(cal: Calendar, ticks: int): (l: LocalDateTime)
    ensures l.ticks == ticks
    ensures MinYear <= l.year <= MaxYear <==> MinTicks <= ticks <= MaxTicks
  {
    LocalFields(ticks, cal(ticks))
  }

  /** A NodaTime ZonedDateTime: a local reading and the offset in force. */
  datatype ZonedDateTime = ZonedDateTime(local: LocalDateTime, offset: Offset) {

    /** The instant it denotes: the local reading minus the offset. */
    function ToInstant(): int {
      local.ticks - offset
    }
  }
}

=== FILE: zones.dfy ===
/** The time zone as the conversion engine sees it. The zone database and
    its transition rules belong to NodaTime; a zone here is only the two
    questions the engine asks of it, left abstract. */
module Zones {
  import opened Time

  /** What a zone answers for a wall-clock reading: one offset, two (the
      reading repeats when clocks go back), or none (the reading is skipped
      when clocks go forward), with the offsets either side of the gap. */
  datatype ZoneLocalMapping =
    | Unique(offset: Offset)
    | Ambiguous(earlyOffset: Offset, lateOffset: Offset)
    | Skipped(offsetBefore: Offset, offsetAfter: Offset)
  {
    /** An overlap comes from an offset that decreases, a gap from one that
        increases. */
    predicate Valid() {
      && (Ambiguous? ==> lateOffset < earlyOffset)
      && (Skipped? ==> offsetBefore < offsetAfter)
    }
  }

  /** A zone: the offset in force at each instant, and its mapping of each
      wall-clock tick count. */
  datatype DateTimeZone = DateTimeZone(offsetAt: int -> Offset, mapLocal: int -> ZoneLocalMapping)

  /** The instants at which the zone shows the given wall-clock reading. */
  function Candidates(localTicks: int, mapping: ZoneLocalMapping): (s: set<int>)
    ensures mapping.Skipped? <==> s == {}
    ensures |s| <= 2
  {
    match mapping
    case Unique(o) => {localTicks - o}
    case Ambiguous(e, l) => {localTicks - e, localTicks - l}
    case Skipped(_, _) => {}
  }

  /** The zone's mapping of a reading agrees with its offsets: each candidate
      instant really carries the offset that produced it, and for a gap the
      instant the gap's earlier offset points at lies after the transition. */
  predicate MappingAgrees(zone: DateTimeZone, localTicks: int) {
    match zone.mapLocal(localTicks)
    case Unique(o) => zone.offsetAt(localTicks - o) == o
    case Ambiguous(e, l) => zone.offsetAt(localTicks - e) == e && zone.offsetAt(localTicks - l) == l
    case Skipped(b, a) => zone.offsetAt(localTicks - b) == a
  }

  /** `Instant.InZone`: the zone's reading at an instant, which always exists
      and is unique. Converting it back through its offset gives the instant. */
  function InZone(instant: int, zone: DateTimeZone, cal: Calendar): (z: ZonedDateTime)
    ensures z.ToInstant() == instant
    ensures z.offset == zone.offsetAt(instant)
  {
    var offset := zone.offsetAt(instant);
    ZonedDateTime(LocalAt(cal, instant + offset), offset)
  }
}
